=== FILE: README.md ===
# RTPQueueZ matchmaking queue in Dafny

RTPQueueZ is a Minecraft (Bukkit) plugin. It groups players who want a random
teleport into a world. A player joins the queue for a world. Once
`max-players-per-queue` players are waiting, the oldest of them leave the queue
as one batch. The batch gets a countdown of `teleport-delay` seconds. Then every
member still online is teleported and gets a cooldown of `cooldown` seconds.
After that the queue for the same world is checked again.

This project models the class `QueueManager`, which holds that state machine,
and the placeholder expansion that reports queue status as text. Everything is
pure functions over immutable values:

- `QueueStore` (queue_store.dfy): the state. It is a map from lower-cased world
  name to an ordered list of player ids, plus a map from player id to cooldown
  expiry in milliseconds. It also holds the store invariant ("a player is in at
  most one queue, at most once") and the lookups `isPlayerInAnyQueue`,
  `getQueuedWorld`, `getQueueCount` and `leaveQueue`. Java's
  `List.remove(Object)` is `RemoveFirst`.
- `QueueManager` (queue_manager.dfy): `joinQueue`, `checkQueueReadiness` and
  `startTeleportProcess`. The host is passed in as values. `worlds` is the set
  of names `Bukkit.getWorld` resolves, `online` is the set of players
  `Bukkit.getPlayer` finds online, and `now` is `System.currentTimeMillis()`.
  Messages, titles and sounds become `Note` values. Each scheduled callback is
  an `Event` in the session's list: a countdown `Tick` or the `Final` step.
  `Fire` runs one such event.
- `QueueTrace` (queue_trace.dfy): any interleaving of joins, leaves, readiness
  checks and callbacks, run one at a time on the main thread.
- `RTPQueuePlaceholder` (placeholder.dfy): `onPlaceholderRequest`.
- `Text` (text.dfy): `toLowerCase`, `equalsIgnoreCase`, `startsWith` and
  `String.valueOf` for non-negative ints.

Points where the code's behaviour is easy to misread:

- The broadcast after a batch is taken is sent only when the first player of
  the batch is online. The "not enough players" status is sent only when the
  newest player is online.
- Cooldowns are stored in milliseconds. The countdown is scheduled in server
  ticks, at 20 ticks per second.
- A batch member can join a queue again during its own countdown, because the
  cooldown is only written at the final step. The invariant "at most one queue"
  still holds, since the batch left the queue when it was taken.

## Model

| member | source | states |
|---|---|---|
| `Text.ToLower` | src/main/java/com/rtpqueuez/config/QueueConfig.java:59 | the result has the input's length, maps each character through the case mapping, and has no upper-case letter left |
| `Text.ToLowerFixesLowerCase` | src/main/java/com/rtpqueuez/config/QueueConfig.java:180 | a name with no upper-case letter is its own lower-case form |
| `Text.ToLowerIdempotent` | src/main/java/com/rtpqueuez/placeholders/RTPQueuePlaceholder.java:53-54 | lower-casing twice (placeholder, then `getQueueCount`) equals lower-casing once |
| `Text.EqualsIgnoreCase` | src/main/java/com/rtpqueuez/placeholders/RTPQueuePlaceholder.java:43 | `equalsIgnoreCase` on the ASCII range: equal lengths and position-by-position agreement up to case (its partner is `Text.EqualsIgnoreCaseIsLowerEquality`) |
| `Text.StartsWith` | src/main/java/com/rtpqueuez/placeholders/RTPQueuePlaceholder.java:52 | `startsWith` holds exactly when the prefix is no longer than the string and agrees with it position by position, case included |
| `Text.EqualsIgnoreCaseIsLowerEquality` | src/main/java/com/rtpqueuez/placeholders/RTPQueuePlaceholder.java:43 | `equalsIgnoreCase` holds exactly when the lower-cased forms are equal |
| `Text.NatToString` | src/main/java/com/rtpqueuez/placeholders/RTPQueuePlaceholder.java:54 | the decimal form of a count is non-empty and all digits; it starts with `0` only for zero, which prints as `"0"` |
| `Text.NatToStringRoundTrip` | src/main/java/com/rtpqueuez/placeholders/RTPQueuePlaceholder.java:54 | reading the decimal string back gives the count it was made from |
| `Text.CanonicalDecimalIsPrinted` | src/main/java/com/rtpqueuez/placeholders/RTPQueuePlaceholder.java:54 | every canonical decimal string (non-empty digits, no leading zero except `"0"`) is what `String.valueOf` prints for its value |
| `Text.CanonicalDecimalUnique` | src/main/java/com/rtpqueuez/placeholders/RTPQueuePlaceholder.java:54 | two canonical decimal strings with the same value are the same string, so a canonical answer with the right value is `String.valueOf`'s answer |
| `Text.NatToStringInjective` | src/main/java/com/rtpqueuez/placeholders/RTPQueuePlaceholder.java:54 | different counts print as different strings |
| `QueueStore.EmptyInv` | src/main/java/com/rtpqueuez/config/QueueConfig.java:23-24 | a freshly constructed manager satisfies the store invariant |
| `QueueStore.InAnyQueue` | src/main/java/com/rtpqueuez/config/QueueConfig.java:187-194 | `isPlayerInAnyQueue`: some list in the map holds the id; `QueueStore.QueuedWorld` returns a world exactly when it holds |
| `QueueStore.QueuedWorld` | src/main/java/com/rtpqueuez/config/QueueConfig.java:199-206 | returns a world exactly when the player is in some queue; that world is the only list holding the player, and it is a lower-cased key |
| `QueueStore.Count` | src/main/java/com/rtpqueuez/config/QueueConfig.java:179-182 | 0 for a name whose lower-cased key is absent, otherwise the length of that key's list |
| `QueueStore.RemoveFirst` | src/main/java/com/rtpqueuez/config/QueueConfig.java:169 | `List.remove(Object)`: unchanged if the id is absent, otherwise the list with its first occurrence cut out |
| `QueueStore.RemoveFirstDistinct` | src/main/java/com/rtpqueuez/config/QueueConfig.java:169 | on a list without repeats, one removal removes the id entirely, keeps every other id, and keeps the list free of repeats |
| `QueueStore.RemoveEach` | src/main/java/com/rtpqueuez/config/QueueConfig.java:79 | the `forEach` removal of each batch id in turn never lengthens the list; `QueueStore.RemoveEachPrefix` gives its exact result for a prefix |
| `QueueStore.RemoveEachPrefix` | src/main/java/com/rtpqueuez/config/QueueConfig.java:78-79 | removing the ids of the first `k` entries one by one leaves exactly the entries from `k` on, for any list |
| `QueueStore.DropFrontPreservesInv` | src/main/java/com/rtpqueuez/config/QueueConfig.java:78-79 | dropping a list's front keeps the invariant, and the dropped ids are in no queue afterwards |
| `QueueStore.Leave` | src/main/java/com/rtpqueuez/config/QueueConfig.java:167-174 | removes the player from the queue holding it and from no other. It reports a removal exactly when the player was queued and is a no-op otherwise. Afterwards the player is in no queue and the invariant holds |
| `QueueManager.Reachable` | src/main/java/com/rtpqueuez/config/QueueConfig.java:105-107 | the `getPlayer`/`isOnline` filter over a batch keeps only online ids and never lengthens the batch |
| `QueueManager.ReachableMembers` | src/main/java/com/rtpqueuez/config/QueueConfig.java:105-107 | the members reached at a step are exactly the batch members online at that step |
| `QueueManager.Countdown` | src/main/java/com/rtpqueuez/config/QueueConfig.java:115-127 | the countdown loop from `i` down to 1 registers `i` ticks (none if `i <= 0`); the `k`-th shows `i - k` and runs at `20 * (delay - i + k)` |
| `QueueManager.ReachableAppend` | src/main/java/com/rtpqueuez/config/QueueConfig.java:105-107 | filtering two parts of a batch one after the other equals filtering the whole, so the filter keeps batch order |
| `QueueManager.ReachableSingle` | src/main/java/com/rtpqueuez/config/QueueConfig.java:107 | a single member is kept exactly when it is online |
| `QueueManager.Schedule` | src/main/java/com/rtpqueuez/config/QueueConfig.java:115-142 | `delay` ticks (none if `delay <= 0`) and then the final step. Tick `k` runs at `20 * k` showing `delay - k`, and the final step runs at `20 * delay` |
| `QueueManager.ScheduleOrdered` | src/main/java/com/rtpqueuez/config/QueueConfig.java:115-142 | a session's callbacks are strictly increasing in time, and every tick is earlier than the final step |
| `QueueManager.StartSession` | src/main/java/com/rtpqueuez/config/QueueConfig.java:100-111 | the session captures the batch, the world, `cooldown * 1000` and the countdown schedule; the first step sends a teleport-starting note exactly to the batch members who are online, and nothing else |
| `QueueManager.RemoveBatch` | src/main/java/com/rtpqueuez/config/QueueConfig.java:78-79 | removing the first `m` ids of a list one by one, as the `forEach` over the batch does, leaves exactly the list from position `m` on |
| `QueueManager.TakeBatch` | src/main/java/com/rtpqueuez/config/QueueConfig.java:70-79 | the store part of a check: a batch is taken exactly when the key's list holds at least `m` ids; it is the first `m` of them and the list keeps the rest; otherwise, and for the cooldowns always, nothing changes |
| `QueueManager.Readiness` | src/main/java/com/rtpqueuez/config/QueueConfig.java:69-95 | starts a session exactly when the count reaches `maxPlayers`. The batch is the first `maxPlayers` ids and the list keeps the rest; no other list and no cooldown changes. The session carries `cooldown * 1000` and the countdown schedule; its online members are told the teleport is starting, and the broadcast names the first member exactly when it is online. A started check sends only those teleport-starting notes and the broadcast, one note per online member plus one when the first is online. Below the threshold nothing changes: the newest player is told the queue size exactly when it is online, and an empty or missing list sends nothing |
| `QueueManager.ReadinessTakesBatch` | src/main/java/com/rtpqueuez/config/QueueConfig.java:69-81 | the state after a check and the batch of the session it starts are exactly those of `TakeBatch` on the lower-cased key |
| `QueueManager.ReadinessPreservesInv` | src/main/java/com/rtpqueuez/config/QueueConfig.java:75-81 | taking a batch keeps the invariant, and no batch member is left in any queue |
| `QueueManager.ReadinessIdempotentBelowThreshold` | src/main/java/com/rtpqueuez/config/QueueConfig.java:73-94 | below the threshold the check leaves the state as it was, so repeating it repeats the same outcome |
| `QueueManager.ChecksAreDrain` | src/main/java/com/rtpqueuez/config/QueueConfig.java:69-81 | `k` readiness checks in a row for one world leave the same store and start sessions with the same batches as `Drain` on the lower-cased key, so the `Drain` rows below hold for the checks |
| `QueueManager.DrainFollowsList` | src/main/java/com/rtpqueuez/config/QueueConfig.java:76-79 | `k` successive checks (`Drain`) on a list with enough ids leave under that key what taking `k` batches of `m` off the front of the list leaves, and their batches are those batches |
| `QueueManager.RestAfterIsSuffix` | src/main/java/com/rtpqueuez/config/QueueConfig.java:78-79 | after `k` batches of `m`, what is left is the list from position `Taken(k, m)` on |
| `QueueManager.FrontBatchesArePrefix` | src/main/java/com/rtpqueuez/config/QueueConfig.java:76-79 | there are `k` batches, each of exactly `m` ids, and laid end to end they are the first `Taken(k, m)` ids of the list, in queue order |
| `QueueManager.DrainTakesConsecutiveBatches` | src/main/java/com/rtpqueuez/config/QueueConfig.java:76-81 | `k` successive checks take `k` batches of exactly `maxPlayers` ids. In order, they are exactly the oldest `Taken(k, maxPlayers)` ids, and the queue keeps the rest |
| `QueueManager.DrainLeavesRemainder` | src/main/java/com/rtpqueuez/config/QueueConfig.java:76-81 | after `k` checks, where `Taken(k, maxPlayers) <= size < Taken(k, maxPlayers) + maxPlayers`, the list from position `Taken(k, maxPlayers)` on remains, which is fewer than `maxPlayers` ids, and a further check takes nothing |
| `QueueManager.TakenIsProduct` | src/main/java/com/rtpqueuez/config/QueueConfig.java:76-79 | `Taken(k, m)`, the number of ids `k` batches of `m` take, is `k * m` |
| `QueueManager.CooldownEnd` | src/main/java/com/rtpqueuez/config/QueueConfig.java:44 | `getOrDefault(id, 0L)`: the recorded expiry, or 0 for a player with no record |
| `QueueManager.RemainingSeconds` | src/main/java/com/rtpqueuez/config/QueueConfig.java:46 | the reported seconds are the whole seconds left: `s * 1000 <= end - now < (s + 1) * 1000` |
| `QueueManager.Enqueue` | src/main/java/com/rtpqueuez/config/QueueConfig.java:59 | appends the id to the end of the lower-cased key's list, creating the list if it is absent; other lists and cooldowns are unchanged |
| `QueueManager.EnqueuePreservesInv` | src/main/java/com/rtpqueuez/config/QueueConfig.java:53-59 | appending a player who is in no queue keeps the invariant |
| `QueueManager.Join` | src/main/java/com/rtpqueuez/config/QueueConfig.java:34-64 | an unknown world leaves the state unchanged with one invalid-world note. An active cooldown, checked before the already-queued test, leaves it unchanged with one cooldown note. A queued player gets one already-queued note. Otherwise the player is appended, the join is confirmed, and the readiness check runs; cooldowns never change |
| `QueueManager.JoinPreservesInv` | src/main/java/com/rtpqueuez/config/QueueConfig.java:34-64 | every join, admitted or rejected, keeps the invariant |
| `QueueManager.JoinOnCooldown` | src/main/java/com/rtpqueuez/config/QueueConfig.java:43-50 | a join during the cooldown changes nothing and reports `(cooldownEnd - now) / 1000` whole seconds, whether or not the player is queued |
| `QueueManager.JoinAppends` | src/main/java/com/rtpqueuez/config/QueueConfig.java:59-63 | an admitted join puts the id at the end of its world's list. If that fills the list, the first `maxPlayers` ids leave as the batch. No other list changes |
| `QueueManager.JoinReachingThresholdEmptiesQueue` | src/main/java/com/rtpqueuez/config/QueueConfig.java:59-81 | the join that brings a list to the threshold takes the whole list, joiner included, as one batch and leaves it empty |
| `QueueManager.JoinAfterCooldownSucceeds` | src/main/java/com/rtpqueuez/config/QueueConfig.java:43-60 | once the cooldown expiry has passed, an unqueued player asking for a resolvable world is admitted |
| `QueueManager.SetCooldowns` | src/main/java/com/rtpqueuez/config/QueueConfig.java:138 | every given id gets the expiry; every other id keeps its old record or stays absent |
| `QueueManager.TeleportedNotes` | src/main/java/com/rtpqueuez/config/QueueConfig.java:132-136 | one note per batch member online at the final step, in batch order: a player gets a teleport exactly when it is such a member, and every note is a teleport to the session's world |
| `QueueManager.TeleportCooldowns` | src/main/java/com/rtpqueuez/config/QueueConfig.java:132-139 | the batch members online at the final step get a cooldown ending `cooldownMillis` after now; every other record is kept or stays absent, and the queues are untouched |
| `QueueManager.FinalStep` | src/main/java/com/rtpqueuez/config/QueueConfig.java:131-142 | exactly the batch members online at this step are teleported and get `now + cooldown * 1000`; all other cooldowns are unchanged; then the readiness check runs on the same world. The step's state and session are those of that check. Its notes start with one teleport to the session's world per online batch member and no other, followed by exactly that check's notes |
| `QueueManager.TickNotes` | src/main/java/com/rtpqueuez/config/QueueConfig.java:117-127 | a tick sends its countdown value to exactly the batch members online at that tick |
| `QueueManager.Fire` | src/main/java/com/rtpqueuez/config/QueueConfig.java:115-142 | a countdown tick never changes the state or starts a session; the final step's queues are those of the readiness check for the session's world |
| `QueueManager.FirePreservesInv` | src/main/java/com/rtpqueuez/config/QueueConfig.java:131-142 | every callback keeps the invariant |
| `QueueManager.JoinWithWholeCooldownLeft` | src/main/java/com/rtpqueuez/config/QueueConfig.java:43-50 | with exactly `c` whole seconds of cooldown left, a join for a resolvable world is refused with the single note reporting `c` seconds |
| `QueueManager.RejoinRightAfterTeleportIsOnCooldown` | src/main/java/com/rtpqueuez/config/QueueConfig.java:43-50 | a teleported player who asks to join at the same instant is refused with exactly `cooldown` seconds left |
| `QueueManager.FirstJoinWaits` | src/main/java/com/rtpqueuez/config/QueueConfig.java:34-95 | with the default settings, the first player to join an empty manager for "spawn" is queued alone, confirmed, and told one player is waiting |
| `QueueManager.SecondJoinStarts` | src/main/java/com/rtpqueuez/config/QueueConfig.java:34-81 | with the default settings, a second player joining "spawn" behind a first takes both into one session with the default cooldown and a five-second schedule, empties the list, and announces the first player |
| `QueueManager.FullSpawnQueueStarts` | src/main/java/com/rtpqueuez/config/QueueConfig.java:69-81 | with the default settings, a check on a "spawn" list of two starts one session with both, the default cooldown and a five-second schedule, empties the list, and announces the first |
| `QueueManager.TwoPlayerScenario` | src/main/java/com/rtpqueuez/config/QueueConfig.java:34-142 | with the default settings, the first join to "spawn" reports 1 waiting. The second join takes both players as one batch, broadcasts naming the first, empties the list, and schedules five ticks and a final step |
| `QueueTrace.Apply` | src/main/java/com/rtpqueuez/config/QueueConfig.java:34-174 | each action keeps the invariant, starts at most one session, and a leave leaves the player in no queue |
| `QueueTrace.Run` | src/main/java/com/rtpqueuez/config/QueueConfig.java:34-174 | any trace of actions keeps the invariant and only adds sessions |
| `QueueTrace.NoPlayerInTwoQueues` | src/main/java/com/rtpqueuez/config/QueueConfig.java:53-59 | from a fresh manager, whatever the interleaving, no player is ever in two queues |
| `QueueTrace.SessionsHaveFullBatches` | src/main/java/com/rtpqueuez/config/QueueConfig.java:75-81 | under a fixed configuration every session started carries exactly `maxPlayers` ids |
| `RTPQueuePlaceholder.OnPlaceholderRequest` | src/main/java/com/rtpqueuez/placeholders/RTPQueuePlaceholder.java:37-58 | a null player gives "". `status_player` in any case gives "Not in Queue" exactly when the player is unqueued, else "Queued for " plus the key of the list holding it. `count_` gives a canonical decimal string (non-empty, no leading zero) whose value is the count for the rest of the identifier, which by `Text.CanonicalDecimalUnique` is `String.valueOf`'s text. Anything else gives null |
| `RTPQueuePlaceholder.IdentifierCase` | src/main/java/com/rtpqueuez/placeholders/RTPQueuePlaceholder.java:43-55 | `STATUS_PLAYER` answers like `status_player`; `COUNT_spawn` gives null |
| `RTPQueuePlaceholder.CountIgnoresWorldCase` | src/main/java/com/rtpqueuez/placeholders/RTPQueuePlaceholder.java:52-54 | `count_<world>` answers the same whatever the case of `<world>` |
| `RTPQueuePlaceholder.StatusAfterJoin` | src/main/java/com/rtpqueuez/placeholders/RTPQueuePlaceholder.java:43-47 | after an admitted join that does not fill the queue, the player's status names the lower-cased world |

## Left out

- `performRTP` (src/main/java/com/rtpqueuez/config/QueueConfig.java:148-162) picks a location with `Math.random` and moves the player through the Bukkit API. It is a `Teleported` note here. Its own early return when the world no longer resolves is not modelled; the cooldown is written either way, as in the source.
- Message text, `ChatColor`, titles and sounds are left out. Each is a `Note` naming its recipient and its parameters. The initial message, title and sound form one `TeleportStarting` note.
- The Bukkit scheduler is left out. Callbacks are `Event` values with their delay in server ticks, and a trace may fire them in any order. Bukkit's treatment of a negative delay is not modelled.
- `QueueManager.FinalStep`: it uses one `now` for the whole batch. The source reads the clock again for each player.
- `QueueManager.Readiness`: it requires `maxPlayers >= 1`. With 0, the source schedules an empty session and then throws from `get(0)`. With a negative value, `subList` throws.
- `QueueStore.QueuedWorld`: it requires the store invariant. The source scans a `HashMap` in hash order, and under the invariant at most one list can match. `QueueStore.Leave` and `RTPQueuePlaceholder.OnPlaceholderRequest` inherit this requirement.
- `Text.ToLower`: it maps only the ASCII letters `A`-`Z`. Java's `toLowerCase` is locale-sensitive and covers all of Unicode.
- `Text.EqualsIgnoreCase`: it compares up to case on the ASCII range only. Java's `equalsIgnoreCase` also matches non-ASCII case pairs such as U+017F against `s`; these do not match here.
- `QueueManager.SetCooldowns`: 64-bit overflow of `now + cooldown * 1000` is not modelled. Integers here are unbounded.
- Player ids are integers standing for `UUID`s. `Bukkit.getPlayer(uuid) != null && isOnline()` is membership in `online`. `Bukkit.getWorld(name) != null` is membership in `worlds`.
- The class `QueueConfig` (YAML loading, menus, PlaceholderAPI calls), `MenuListener`, `RTPQueueCommand`, the plugin class `RTPQueueZ` and `ChatUtil` are not part of this model. They are host glue. Only the three settings the manager reads appear, as `Config`, with the defaults from src/main/java/com/rtpqueuez/queue/QueueManager.java:45-47.

=== FILE: placeholder.dfy ===
/**
 `RTPQueuePlaceholder.onPlaceholderRequest`: the text a placeholder such as
 `%rtpqueue_status_player%` or `%rtpqueue_count_<world>%` expands to, read off
 the queue state. A `null` player is `None` on the way in; a `null` answer
 (the placeholder is not one of ours) is `None` on the way out.
 */
module RTPQueuePlaceholder {
  import opened Wrappers
  import opened Text
  import opened QueueStore
  import QueueManager

  const StatusIdentifier: string := "status_player"
  const CountPrefix: string := "count_"
  const NotQueued: string := "Not in Queue"
  const QueuedPrefix: string := "Queued for "

  function OnPlaceholderRequest(st: State, player: Option<PlayerId>, identifier: string): (r: Option<string>)
    requires Inv(st)
    ensures player.None? ==> r == Some("")
    ensures player.Some? && EqualsIgnoreCase(identifier, StatusIdentifier) ==>
      && r.Some?
      && (r.value == NotQueued <==> !InAnyQueue(st, player.value))
      && (InAnyQueue(st, player.value) ==>
            exists w :: w in st.queues && player.value in st.queues[w] && r.value == QueuedPrefix + w)
    ensures player.Some? && !EqualsIgnoreCase(identifier, StatusIdentifier) && StartsWith(identifier, CountPrefix) ==>
      && r.Some?
      && IsCanonicalDecimal(r.value)
      && DigitsValue(r.value) == Count(st, identifier[|CountPrefix|..])
    ensures player.Some? && !EqualsIgnoreCase(identifier, StatusIdentifier) && !StartsWith(identifier, CountPrefix) ==>
      r.None?
  {
    if player.None? then Some("")
    else if EqualsIgnoreCase(identifier, StatusIdentifier) then
      match QueuedWorld(st, player.value)
      case Some(world) =>
        assert (QueuedPrefix + world)[0] != NotQueued[0];
        Some(QueuedPrefix + world)
      case None => Some(NotQueued)
    else if StartsWith(identifier, CountPrefix) then
      var worldName := ToLower(identifier[|CountPrefix|..]);
      ToLowerIdempotent(identifier[|CountPrefix|..]);
      NatToStringRoundTrip(Count(st, worldName));
      Some(NatToString(Count(st, worldName)))
    else
      None
  }

  /** The status identifier is matched whatever its case; the count prefix only
      in lower case. */
  lemma IdentifierCase(st: State, p: PlayerId)
    requires Inv(st)
    ensures OnPlaceholderRequest(st, Some(p), "STATUS_PLAYER") == OnPlaceholderRequest(st, Some(p), "status_player")
    ensures OnPlaceholderRequest(st, Some(p), "COUNT_spawn") == None
  {
    assert EqualsIgnoreCase("STATUS_PLAYER", StatusIdentifier);
    assert "COUNT_spawn"[..6][0] != CountPrefix[0];
    assert !EqualsIgnoreCase("COUNT_spawn", StatusIdentifier) by {
      assert LowerChar("COUNT_spawn"[0]) != LowerChar(StatusIdentifier[0]);
    }
  }

  /** A count placeholder reports the same number as `getQueueCount` for the
      name after the prefix, whatever the case of that name. */
  lemma CountIgnoresWorldCase(st: State, p: PlayerId, world: string)
    requires Inv(st)
    ensures OnPlaceholderRequest(st, Some(p), CountPrefix + world) == OnPlaceholderRequest(st, Some(p), CountPrefix + ToLower(world))
  {
    var a, b := CountPrefix + world, CountPrefix + ToLower(world);
    assert a[..|CountPrefix|] == CountPrefix && a[|CountPrefix|..] == world;
    assert b[..|CountPrefix|] == CountPrefix && b[|CountPrefix|..] == ToLower(world);
    assert !EqualsIgnoreCase(a, StatusIdentifier) by {
      assert LowerChar(a[0]) != LowerChar(StatusIdentifier[0]);
    }
    assert !EqualsIgnoreCase(b, StatusIdentifier) by {
      assert LowerChar(b[0]) != LowerChar(StatusIdentifier[0]);
    }
    ToLowerIdempotent(world);
  }

  /** After a join that is admitted and does not fill the queue, the player's
      status names the lower-cased world. */
  lemma StatusAfterJoin(st: State, cfg: QueueManager.Config, id: PlayerId, worldName: string,
                        worlds: set<string>, online: set<PlayerId>, now: int)
    requires cfg.maxPlayers >= 1 && Inv(st)
    requires worldName in worlds && now >= QueueManager.CooldownEnd(st, id) && !InAnyQueue(st, id)
    requires Count(st, worldName) + 1 < cfg.maxPlayers
    ensures var st' := QueueManager.Join(st, cfg, id, worldName, worlds, online, now).state;
      Inv(st') && OnPlaceholderRequest(st', Some(id), StatusIdentifier) == Some(QueuedPrefix + ToLower(worldName))
  {
    QueueManager.JoinPreservesInv(st, cfg, id, worldName, worlds, online, now);
    QueueManager.JoinAppends(st, cfg, id, worldName, worlds, online, now);
    var st' := QueueManager.Join(st, cfg, id, worldName, worlds, online, now).state;
    var q' := st'.queues[ToLower(worldName)];
    assert q'[|q'| - 1] == id;
    assert InAnyQueue(st', id);
    assert EqualsIgnoreCase(StatusIdentifier, StatusIdentifier);
  }
}

=== FILE: queue_manager.dfy ===
/**
 The class `QueueManager`: joining a world queue, the readiness check that
 pulls a batch off the front of a full queue, and the teleport session that
 counts down, sets cooldowns and checks the queue again.

 The host is passed in rather than called: `worlds` is the set of names
 `Bukkit.getWorld` resolves, `online` the ids `Bukkit.getPlayer` finds online,
 `now` the value of `System.currentTimeMillis()`. Messages, titles, sounds and
 the random teleport itself become `Note`s; the scheduler's delayed callbacks
 become the `Event`s of a `Session`.
 */
module QueueManager {
  import opened Wrappers
  import opened Text
  import opened QueueStore

  /** The three settings the manager reads from its configuration. */
  datatype Config = Config(teleportDelay: int, cooldownSeconds: int, maxPlayers: int)

  /** `teleport-delay: 5`, `cooldown: 30`, `max-players-per-queue: 2`. */
  const DefaultConfig: Config := Config(5, 30, 2)

  /** What the host is asked to show, in the order it is asked. */
  datatype Note =
    | InvalidWorld(to: PlayerId, world: string)
    | CooldownActive(to: PlayerId, seconds: int)
    | AlreadyInQueue(to: PlayerId, world: string)
    | QueueJoined(to: PlayerId, world: string)
    | JoinedBroadcast(first: PlayerId, world: string)
    | NotEnoughPlayers(to: PlayerId, world: string, size: nat)
    | TeleportStarting(to: PlayerId, world: string)
    | CountdownTick(to: PlayerId, time: int)
    | Teleported(to: PlayerId, world: string)

  /** A scheduled callback, with its delay in server ticks from the start of
      the session: a countdown message showing `time`, or the final teleport. */
  datatype Event = Tick(delay: int, time: int) | Final(delay: int)

  /** One batch in flight: the ids pulled off the queue, the world name as the
      caller gave it, the cooldown to apply, and the callbacks scheduled. */
  datatype Session = Session(batch: seq<PlayerId>, world: string, cooldownMillis: int, events: seq<Event>)

  /** The outcome of one call: the new state, the notes emitted, and the
      session started, if any (a call starts at most one). */
  datatype Step = Step(state: State, notes: seq<Note>, started: Option<Session>)

  /** The members of `batch` that are online, in batch order: the source's
      `getPlayer(uuid) != null && isOnline()` filter over the batch. */
  function Reachable(batch: seq<PlayerId>, online: set<PlayerId>): (r: seq<PlayerId>)
    ensures |r| <= |batch|
    ensures forall i :: 0 <= i < |r| ==> r[i] in online
  {
    if batch == [] then []
    else (if batch[0] in online then [batch[0]] else []) + Reachable(batch[1..], online)
  }

  /** Exactly the online members of the batch are reached. */
  lemma {:induction false} ReachableMembers(batch: seq<PlayerId>, online: set<PlayerId>)
    ensures forall p :: p in Reachable(batch, online) <==> p in batch && p in online
  {
    if batch != [] {
      ReachableMembers(batch[1..], online);
      assert batch == [batch[0]] + batch[1..];
    }
  }

  /** The filter keeps batch order: filtering two parts one after the other is
      filtering the whole. With `ReachableSingle` this pins `Reachable` down as
      the order-preserving filter. */
  lemma {:induction false} ReachableAppend(a: seq<PlayerId>, b: seq<PlayerId>, online: set<PlayerId>)
    ensures Reachable(a + b, online) == Reachable(a, online) + Reachable(b, online)
    decreases |a|
  {
    if a != [] {
      assert (a + b)[0] == a[0];
      assert (a + b)[1..] == a[1..] + b;
      ReachableAppend(a[1..], b, online);
    } else {
      assert a + b == b;
    }
  }

  /** One member is reached exactly when it is online. */
  lemma ReachableSingle(p: PlayerId, online: set<PlayerId>)
    ensures Reachable([p], online) == (if p in online then [p] else [])
  {
    assert [p][1..] == [];
  }

  /** One note per id of `ids`, in order, each built by `make`: the shape of
      every `forEach` over the reached members of a batch. */
  function NotesTo(ids: seq<PlayerId>, make: PlayerId -> Note): (r: seq<Note>)
    ensures |r| == |ids|
    ensures forall i :: 0 <= i < |r| ==> r[i] == make(ids[i])
    ensures forall p :: p in ids ==> make(p) in r
  {
    var r := seq(|ids|, i requires 0 <= i < |ids| => make(ids[i]));
    forall p | p in ids ensures make(p) in r {
      var i :| 0 <= i < |ids| && ids[i] == p;
      assert r[i] == make(p);
    }
    r
  }

  /** The countdown loop of `startTeleportProcess` from `i` down to 1 of a
      `delay`-second countdown: the `k`-th registered tick shows `i - k`, at
      its own delay in server ticks. */
  function Countdown(delay: int, i: int): (r: seq<Event>)
    ensures |r| == (if i > 0 then i else 0)
    ensures forall k :: 0 <= k < |r| ==> r[k] == Tick(20 * (delay - i + k), i - k)
    decreases i
  {
    if i <= 0 then [] else [Tick(20 * (delay - i), i)] + Countdown(delay, i - 1)
  }

  function At(e: Event): int {
    match e
    case Tick(d, _) => d
    case Final(d) => d
  }

  /** The callbacks `startTeleportProcess` registers: for every second of the
      delay a tick, one second (20 server ticks) apart, counting down to 1,
      then the final step at the full delay. */
  function Schedule(delay: int): (r: seq<Event>)
    ensures |r| == (if delay > 0 then delay else 0) + 1
    ensures r[|r| - 1] == Final(20 * delay)
    ensures forall k :: 0 <= k < |r| - 1 ==> r[k] == Tick(20 * k, delay - k)
  {
    Countdown(delay, delay) + [Final(20 * delay)]
  }

  /** The callbacks of a session fire in strictly increasing time order, and
      every countdown tick comes before the final step. */
  lemma ScheduleOrdered(delay: int)
    ensures forall j, k :: 0 <= j < k < |Schedule(delay)| ==> At(Schedule(delay)[j]) < At(Schedule(delay)[k])
    ensures forall k :: 0 <= k < |Schedule(delay)| - 1 ==> Schedule(delay)[k].Tick? && At(Schedule(delay)[k]) < 20 * delay
  {
  }

  /** `startTeleportProcess`, up to scheduling: the session it creates and the
      notes its first, immediate step sends to the online members. */
  function StartSession(cfg: Config, batch: seq<PlayerId>, worldName: string, online: set<PlayerId>): (r: (Session, seq<Note>))
    ensures r.0.batch == batch && r.0.world == worldName
    ensures r.0.cooldownMillis == cfg.cooldownSeconds * 1000
    ensures r.0.events == Schedule(cfg.teleportDelay)
    ensures forall n :: n in r.1 ==> n.TeleportStarting? && n.world == worldName
    ensures forall p :: TeleportStarting(p, worldName) in r.1 <==> p in batch && p in online
  {
    ReachableMembers(batch, online);
    var notes := NotesTo(Reachable(batch, online), p => TeleportStarting(p, worldName));
    (Session(batch, worldName, cfg.cooldownSeconds * 1000, Schedule(cfg.teleportDelay)), notes)
  }

  /** The source's removal of a batch taken from the front of `q`, one id at
      a time: it leaves exactly the rest of `q`. */
  function RemoveBatch(q: seq<PlayerId>, m: nat): (r: seq<PlayerId>)
    requires m <= |q|
    ensures r == q[m..]
  {
    RemoveEachPrefix(q, m);
    RemoveEach(q, q[..m])
  }

  /** The store after a readiness check, and the batch it took, if any. */
  datatype Taking = Taking(state: State, batch: Option<seq<PlayerId>>)

  /** What a readiness check does to the store, and the batch it takes: the
      first `m` ids of the list under `key` (the lower-cased world name),
      removed one by one as the source does, once at least `m` are queued. */
  function TakeBatch(st: State, m: int, key: string): (r: Taking)
    requires m >= 1
    ensures r.state.cooldowns == st.cooldowns
    ensures r.batch.Some? <==> key in st.queues && |st.queues[key]| >= m
    ensures r.batch.None? ==> r.state == st
    ensures r.batch.Some? ==>
      && r.batch.value == st.queues[key][..m]
      && r.state.queues == st.queues[key := st.queues[key][m..]]
  {
    if key in st.queues && |st.queues[key]| >= m then
      var q := st.queues[key];
      Taking(st.(queues := st.queues[key := RemoveBatch(q, m)]), Some(q[..m]))
    else
      Taking(st, None)
  }

  /** `checkQueueReadiness`. With at least `maxPlayers` ids queued for the
      lower-cased name, the first `maxPlayers` of them leave the queue and form
      one session; otherwise nothing changes and only the newest player is
      told how many are waiting. */
  function Readiness(st: State, cfg: Config, worldName: string, online: set<PlayerId>): (r: Step)
    requires cfg.maxPlayers >= 1
    ensures r.state.cooldowns == st.cooldowns
    ensures r.started.Some? <==> Count(st, worldName) >= cfg.maxPlayers
    ensures r.started.None? ==> r.state == st
    ensures r.started.Some? ==>
      var q := st.queues[ToLower(worldName)];
      && r.started.value.batch == q[..cfg.maxPlayers]
      && r.started.value.world == worldName
      && r.started.value.cooldownMillis == cfg.cooldownSeconds * 1000
      && r.started.value.events == Schedule(cfg.teleportDelay)
      && r.state.queues == st.queues[ToLower(worldName) := q[cfg.maxPlayers..]]
    ensures r.started.Some? ==>
      var batch := r.started.value.batch;
      && (forall p :: TeleportStarting(p, worldName) in r.notes <==> p in batch && p in online)
      && (forall p :: JoinedBroadcast(p, worldName) in r.notes <==> p == batch[0] && p in online)
    ensures r.started.Some? ==>
      var batch := r.started.value.batch;
      && (forall n :: n in r.notes ==> (n.TeleportStarting? || n.JoinedBroadcast?) && n.world == worldName)
      && |r.notes| == |Reachable(batch, online)| + (if batch[0] in online then 1 else 0)
    ensures r.started.None? ==>
      var key := ToLower(worldName);
      if key in st.queues && st.queues[key] != [] && st.queues[key][|st.queues[key]| - 1] in online then
        var q := st.queues[key];
        r.notes == [NotEnoughPlayers(q[|q| - 1], worldName, |q|)]
      else
        r.notes == []
  {
    var t := TakeBatch(st, cfg.maxPlayers, ToLower(worldName));
    match t.batch
    case Some(batch) =>
      var start := StartSession(cfg, batch, worldName, online);
      var broadcast := if batch[0] in online then [JoinedBroadcast(batch[0], worldName)] else [];
      Step(t.state, start.1 + broadcast, Some(start.0))
    case None =>
      var key := ToLower(worldName);
      if key !in st.queues || st.queues[key] == [] then Step(st, [], None)
      else
        var q := st.queues[key];
        var newest := q[|q| - 1];
        Step(st, if newest in online then [NotEnoughPlayers(newest, worldName, |q|)] else [], None)
  }

  /** The store after a readiness check, and the batch of the session it
      starts, are those of `TakeBatch`, so a drain follows the checks. */
  lemma ReadinessTakesBatch(st: State, cfg: Config, worldName: string, online: set<PlayerId>)
    requires cfg.maxPlayers >= 1
    ensures var r := Readiness(st, cfg, worldName, online);
      var t := TakeBatch(st, cfg.maxPlayers, ToLower(worldName));
      && r.state == t.state
      && (r.started.Some? <==> t.batch.Some?)
      && (r.started.Some? ==> r.started.value.batch == t.batch.value)
  {
  }

  /** Taking the front of a queue keeps the store invariant, and the ids of the
      batch are in no queue once it is taken, so a later check cannot take
      them again. */
  lemma ReadinessPreservesInv(st: State, cfg: Config, worldName: string, online: set<PlayerId>)
    requires cfg.maxPlayers >= 1
    requires Inv(st)
    ensures var r := Readiness(st, cfg, worldName, online);
      && Inv(r.state)
      && (r.started.Some? ==> forall p :: p in r.started.value.batch ==> !InAnyQueue(r.state, p))
  {
    if Count(st, worldName) >= cfg.maxPlayers {
      var key := ToLower(worldName);
      DropFrontPreservesInv(st, key, cfg.maxPlayers);
    }
  }

  /** Below the threshold a readiness check changes nothing, so checking again
      gives the same outcome. */
  lemma ReadinessIdempotentBelowThreshold(st: State, cfg: Config, worldName: string, online: set<PlayerId>)
    requires cfg.maxPlayers >= 1
    requires Count(st, worldName) < cfg.maxPlayers
    ensures Readiness(st, cfg, worldName, online).state == st
    ensures Readiness(Readiness(st, cfg, worldName, online).state, cfg, worldName, online) == Readiness(st, cfg, worldName, online)
  {
  }

  /** The store part of the readiness check applied `k` times in a row with
      nothing in between: the final state and the batches taken, in order. */
  function Drain(st: State, m: int, key: string, k: nat): (State, seq<seq<PlayerId>>)
    requires m >= 1
    decreases k
  {
    if k == 0 then (st, [])
    else
      var t := TakeBatch(st, m, key);
      var rest := Drain(t.state, m, key, k - 1);
      (rest.0, (if t.batch.Some? then [t.batch.value] else []) + rest.1)
  }

  /** `k` readiness checks in a row for the same world, as the store sees
      them: the store after the last one and the batches of the sessions
      they started, in order. */
  function Checks(st: State, cfg: Config, worldName: string, online: set<PlayerId>, k: nat): (State, seq<seq<PlayerId>>)
    requires cfg.maxPlayers >= 1
    decreases k
  {
    if k == 0 then (st, [])
    else
      var r := Readiness(st, cfg, worldName, online);
      var rest := Checks(r.state, cfg, worldName, online, k - 1);
      (rest.0, (if r.started.Some? then [r.started.value.batch] else []) + rest.1)
  }

  /** Successive readiness checks are a drain of the lower-cased key, so what
      is proved about `Drain` holds for the checks themselves. */
  lemma {:induction false} ChecksAreDrain(st: State, cfg: Config, worldName: string, online: set<PlayerId>, k: nat)
    requires cfg.maxPlayers >= 1
    ensures Checks(st, cfg, worldName, online, k) == Drain(st, cfg.maxPlayers, ToLower(worldName), k)
    decreases k
  {
    if k > 0 {
      ReadinessTakesBatch(st, cfg, worldName, online);
      ChecksAreDrain(Readiness(st, cfg, worldName, online).state, cfg, worldName, online, k - 1);
    }
  }

  /** The batches of a drain, one after another. */
  function Flatten(batches: seq<seq<PlayerId>>): seq<PlayerId> {
    if batches == [] then [] else batches[0] + Flatten(batches[1..])
  }

  /** What is left of a list after `k` batches of `m` are taken off its
      front. */
  function RestAfter(q: seq<PlayerId>, m: nat, k: nat): seq<PlayerId>
    requires Taken(k, m) <= |q|
  {
    if k == 0 then q else RestAfter(q[m..], m, k - 1)
  }

  /** The `k` batches of `m` taken off the front of a list, in order. */
  function FrontBatches(q: seq<PlayerId>, m: nat, k: nat): seq<seq<PlayerId>>
    requires Taken(k, m) <= |q|
  {
    if k == 0 then [] else [q[..m]] + FrontBatches(q[m..], m, k - 1)
  }

  /** A drain of `k` full checks touches only the list under `key`, and does
      to it what taking `k` batches off its front does. */
  lemma {:induction false} DrainFollowsList(st: State, m: int, key: string, k: nat)
    requires m >= 1
    requires key in st.queues && Taken(k, m) <= |st.queues[key]|
    ensures key in Drain(st, m, key, k).0.queues
    ensures Drain(st, m, key, k).0.queues[key] == RestAfter(st.queues[key], m, k)
    ensures Drain(st, m, key, k).1 == FrontBatches(st.queues[key], m, k)
    decreases k
  {
    if k > 0 {
      var t := TakeBatch(st, m, key);
      DrainFollowsList(t.state, m, key, k - 1);
    }
  }

  /** After `k` batches of `m` the list holds what follows its first
      `Taken(k, m)` ids. */
  lemma {:induction false} RestAfterIsSuffix(q: seq<PlayerId>, m: nat, k: nat)
    requires Taken(k, m) <= |q|
    ensures RestAfter(q, m, k) == q[Taken(k, m)..]
    decreases k
  {
    if k > 0 {
      RestAfterIsSuffix(q[m..], m, k - 1);
      SlicesCompose(q, m, Taken(k - 1, m));
    }
  }

  /** There are `k` batches, each of `m` ids, and laid end to end they are the
      first `Taken(k, m)` ids of the list. */
  lemma {:induction false} FrontBatchesArePrefix(q: seq<PlayerId>, m: nat, k: nat)
    requires Taken(k, m) <= |q|
    ensures |FrontBatches(q, m, k)| == k
    ensures forall i :: 0 <= i < k ==> |FrontBatches(q, m, k)[i]| == m
    ensures Flatten(FrontBatches(q, m, k)) == q[..Taken(k, m)]
    decreases k
  {
    if k > 0 {
      var rest := FrontBatches(q[m..], m, k - 1);
      FrontBatchesArePrefix(q[m..], m, k - 1);
      assert FrontBatches(q, m, k) == [q[..m]] + rest;
      assert forall i :: 1 <= i < k ==> FrontBatches(q, m, k)[i] == rest[i - 1];
      SlicesCompose(q, m, Taken(k - 1, m));
      FlattenCons(q[..m], rest);
    }
  }

  /** Successive readiness checks take consecutive `maxPlayers`-sized slices
      off the front of the queue, oldest first, one per check: laid end to end
      the batches are exactly the oldest `Taken(k, maxPlayers)` ids, and the
      queue keeps the rest. */
  lemma DrainTakesConsecutiveBatches(st: State, m: int, key: string, k: nat)
    requires m >= 1
    requires key in st.queues && Taken(k, m) <= |st.queues[key]|
    ensures var q := st.queues[key];
      var d := Drain(st, m, key, k);
      && key in d.0.queues
      && d.0.queues[key] == q[Taken(k, m)..]
      && |d.1| == k
      && (forall i :: 0 <= i < k ==> |d.1[i]| == m)
      && Flatten(d.1) == q[..Taken(k, m)]
  {
    DrainFollowsList(st, m, key, k);
    RestAfterIsSuffix(st.queues[key], m, k);
    FrontBatchesArePrefix(st.queues[key], m, k);
  }

  lemma FlattenCons(b: seq<PlayerId>, bs: seq<seq<PlayerId>>)
    ensures Flatten([b] + bs) == b + Flatten(bs)
  {
    assert ([b] + bs)[1..] == bs;
  }

  lemma SlicesCompose(q: seq<PlayerId>, m: nat, n: nat)
    requires m + n <= |q|
    ensures q[m..][n..] == q[m + n..]
    ensures q[..m] + q[m..][..n] == q[..m + n]
  {
  }

  /** How many ids `k` batches of `m` take. */
  function Taken(k: nat, m: nat): nat {
    if k == 0 then 0 else Taken(k - 1, m) + m
  }

  /** `k` batches of `m` take `k * m` ids. */
  lemma {:induction false} TakenIsProduct(k: nat, m: nat)
    ensures Taken(k, m) == k * m
  {
    if k > 0 {
      TakenIsProduct(k - 1, m);
      assert (k - 1) * m + m == k * m;
    }
  }

  /** Once every full batch has been taken (`k` checks, where `k` is
      `size / maxPlayers`), the `size mod maxPlayers` youngest ids remain and a
      further check takes nothing. `Taken(k, m)` is `k * m` (`TakenIsProduct`). */
  lemma DrainLeavesRemainder(st: State, cfg: Config, worldName: string, online: set<PlayerId>, k: nat)
    requires cfg.maxPlayers >= 1
    requires ToLower(worldName) in st.queues
    requires Taken(k, cfg.maxPlayers) <= |st.queues[ToLower(worldName)]| < Taken(k, cfg.maxPlayers) + cfg.maxPlayers
    ensures var q := st.queues[ToLower(worldName)];
      var d := Drain(st, cfg.maxPlayers, ToLower(worldName), k);
      && ToLower(worldName) in d.0.queues
      && d.0.queues[ToLower(worldName)] == q[Taken(k, cfg.maxPlayers)..]
      && Count(d.0, worldName) < cfg.maxPlayers
      && Readiness(d.0, cfg, worldName, online).started.None?
  {
    DrainTakesConsecutiveBatches(st, cfg.maxPlayers, ToLower(worldName), k);
  }

  /** The cooldown expiry on record, `0` when there is none. */
  function CooldownEnd(st: State, id: PlayerId): (end: int)
    ensures id in st.cooldowns ==> end == st.cooldowns[id]
    ensures id !in st.cooldowns ==> end == 0
  {
    if id in st.cooldowns then st.cooldowns[id] else 0
  }

  /** Whole seconds left of a cooldown, Java's `(cooldownEnd - now) / 1000`.
      The difference is positive here, where truncating and Euclidean division
      agree. */
  function RemainingSeconds(cooldownEnd: int, now: int): (s: nat)
    requires now < cooldownEnd
    ensures s * 1000 <= cooldownEnd - now < (s + 1) * 1000
  {
    (cooldownEnd - now) / 1000
  }

  /** The state after appending `id` to the list for `worldName`'s key. */
  function Enqueue(st: State, id: PlayerId, worldName: string): (r: State)
    ensures ToLower(worldName) in r.queues
    ensures r.queues[ToLower(worldName)] ==
      (if ToLower(worldName) in st.queues then st.queues[ToLower(worldName)] else []) + [id]
    ensures forall w :: w != ToLower(worldName) ==> (w in r.queues <==> w in st.queues)
    ensures forall w :: w in st.queues && w != ToLower(worldName) ==> r.queues[w] == st.queues[w]
    ensures r.cooldowns == st.cooldowns
  {
    var key := ToLower(worldName);
    var q := if key in st.queues then st.queues[key] else [];
    st.(queues := st.queues[key := q + [id]])
  }

  /** Appending an id that is in no queue keeps the store invariant. */
  lemma EnqueuePreservesInv(st: State, id: PlayerId, worldName: string)
    requires Inv(st)
    requires !InAnyQueue(st, id)
    ensures Inv(Enqueue(st, id, worldName))
  {
    var key := ToLower(worldName);
    var q := if key in st.queues then st.queues[key] else [];
    var q' := q + [id];
    assert id !in q;
    assert Distinct(q') by {
      forall i, j | 0 <= i < j < |q'| ensures q'[i] != q'[j] {
        if j == |q| { assert q'[i] == q[i]; }
      }
    }
    var r := Enqueue(st, id, worldName);
    forall w1, w2, p | w1 in r.queues && w2 in r.queues && p in r.queues[w1] && p in r.queues[w2]
      ensures w1 == w2
    {
      assert p in r.queues[w1] ==> (w1 == key && p == id) || (w1 in st.queues && p in st.queues[w1]);
      assert p in r.queues[w2] ==> (w2 == key && p == id) || (w2 in st.queues && p in st.queues[w2]);
    }
  }

  /** `joinQueue`: resolve the world, then the cooldown gate, then the
      already-queued gate; on success append the player under the lower-cased
      name and run the readiness check for that name. */
  function Join(st: State, cfg: Config, id: PlayerId, worldName: string,
                worlds: set<string>, online: set<PlayerId>, now: int): (r: Step)
    requires cfg.maxPlayers >= 1
    ensures worldName !in worlds ==> r == Step(st, [InvalidWorld(id, worldName)], None)
    ensures worldName in worlds && now < CooldownEnd(st, id) ==>
      r.state == st && r.started.None? && |r.notes| == 1 && r.notes[0].CooldownActive? && r.notes[0].to == id
    ensures worldName in worlds && now >= CooldownEnd(st, id) && InAnyQueue(st, id) ==>
      r == Step(st, [AlreadyInQueue(id, worldName)], None)
    ensures worldName in worlds && now >= CooldownEnd(st, id) && !InAnyQueue(st, id) ==>
      var r1 := Readiness(Enqueue(st, id, worldName), cfg, worldName, online);
      r == Step(r1.state, [QueueJoined(id, worldName)] + r1.notes, r1.started)
    ensures r.state.cooldowns == st.cooldowns
  {
    if worldName !in worlds then
      Step(st, [InvalidWorld(id, worldName)], None)
    else
      var cooldownEnd := CooldownEnd(st, id);
      if now < cooldownEnd then
        Step(st, [CooldownActive(id, RemainingSeconds(cooldownEnd, now))], None)
      else if InAnyQueue(st, id) then
        Step(st, [AlreadyInQueue(id, worldName)], None)
      else
        var st1 := Enqueue(st, id, worldName);
        var r1 := Readiness(st1, cfg, worldName, online);
        Step(r1.state, [QueueJoined(id, worldName)] + r1.notes, r1.started)
  }

  /** Every join, admitted or not, keeps the store invariant. */
  lemma JoinPreservesInv(st: State, cfg: Config, id: PlayerId, worldName: string,
                         worlds: set<string>, online: set<PlayerId>, now: int)
    requires cfg.maxPlayers >= 1
    requires Inv(st)
    ensures Inv(Join(st, cfg, id, worldName, worlds, online, now).state)
  {
    if worldName in worlds && now >= CooldownEnd(st, id) && !InAnyQueue(st, id) {
      EnqueuePreservesInv(st, id, worldName);
      ReadinessPreservesInv(Enqueue(st, id, worldName), cfg, worldName, online);
    }
  }

  /** A rejected join reports the remaining cooldown in whole seconds, and the
      cooldown gate is checked before the already-queued gate. */
  lemma JoinOnCooldown(st: State, cfg: Config, id: PlayerId, worldName: string,
                       worlds: set<string>, online: set<PlayerId>, now: int)
    requires cfg.maxPlayers >= 1
    requires worldName in worlds
    requires now < CooldownEnd(st, id)
    ensures var r := Join(st, cfg, id, worldName, worlds, online, now);
      && r.state == st
      && r.notes == [CooldownActive(id, r.notes[0].seconds)]
      && r.notes[0].seconds * 1000 <= CooldownEnd(st, id) - now < (r.notes[0].seconds + 1) * 1000
  {
  }

  /** A successful join puts the player at the end of its world's list (unless
      the readiness check it triggers takes that list's front), and touches no
      other list. */
  lemma JoinAppends(st: State, cfg: Config, id: PlayerId, worldName: string,
                    worlds: set<string>, online: set<PlayerId>, now: int)
    requires cfg.maxPlayers >= 1
    requires worldName in worlds && now >= CooldownEnd(st, id) && !InAnyQueue(st, id)
    ensures var r := Join(st, cfg, id, worldName, worlds, online, now);
      var key := ToLower(worldName);
      var q := (if key in st.queues then st.queues[key] else []) + [id];
      && r.notes[0] == QueueJoined(id, worldName)
      && key in r.state.queues
      && (|q| < cfg.maxPlayers ==> r.state.queues[key] == q && r.started.None?)
      && (|q| >= cfg.maxPlayers ==> r.state.queues[key] == q[cfg.maxPlayers..] && r.started.Some? && r.started.value.batch == q[..cfg.maxPlayers])
      && (forall w :: w != key ==> (w in r.state.queues <==> w in st.queues))
      && (forall w :: w in st.queues && w != key ==> r.state.queues[w] == st.queues[w])
  {
  }

  /** The join that brings a queue from below the threshold up to it takes
      exactly one batch, the whole queue, and leaves the list empty. */
  lemma JoinReachingThresholdEmptiesQueue(st: State, cfg: Config, id: PlayerId, worldName: string,
                                           worlds: set<string>, online: set<PlayerId>, now: int)
    requires cfg.maxPlayers >= 1
    requires worldName in worlds && now >= CooldownEnd(st, id) && !InAnyQueue(st, id)
    requires Count(st, worldName) == cfg.maxPlayers - 1
    ensures var r := Join(st, cfg, id, worldName, worlds, online, now);
      && r.started.Some?
      && r.started.value.batch == (if ToLower(worldName) in st.queues then st.queues[ToLower(worldName)] else []) + [id]
      && r.state.queues[ToLower(worldName)] == []
  {
    JoinAppends(st, cfg, id, worldName, worlds, online, now);
    var key := ToLower(worldName);
    var q := (if key in st.queues then st.queues[key] else []) + [id];
    assert |q| == cfg.maxPlayers;
    WholeSlice(q, cfg.maxPlayers);
  }

  /** Slicing a list at its own length leaves it whole and nothing after it. */
  lemma WholeSlice<T>(q: seq<T>, m: nat)
    requires |q| == m
    ensures q[..m] == q && q[m..] == []
  {
  }

  /** Once the cooldown has run out, a player in no queue who asks for a world
      the host resolves is admitted. */
  lemma JoinAfterCooldownSucceeds(st: State, cfg: Config, id: PlayerId, worldName: string,
                                  worlds: set<string>, online: set<PlayerId>, now: int)
    requires cfg.maxPlayers >= 1
    requires worldName in worlds && !InAnyQueue(st, id)
    requires id in st.cooldowns && st.cooldowns[id] <= now
    ensures Join(st, cfg, id, worldName, worlds, online, now).notes[0] == QueueJoined(id, worldName)
  {
  }

  /** `cooldowns` with every id of `ids` mapped to `expiry`. */
  function SetCooldowns(cooldowns: map<PlayerId, int>, ids: seq<PlayerId>, expiry: int): (r: map<PlayerId, int>)
    ensures forall p :: p in ids ==> p in r && r[p] == expiry
    ensures forall p :: p !in ids ==> (p in r <==> p in cooldowns) && (p in cooldowns ==> r[p] == cooldowns[p])
  {
    cooldowns + map p | p in ids :: expiry
  }

  /** The final step of a session: every member online now is teleported and
      gets a cooldown of `cooldownMillis` from now; then the readiness check
      runs again for the session's world. */
  function FinalStep(st: State, cfg: Config, s: Session, online: set<PlayerId>, now: int): (r: Step)
    requires cfg.maxPlayers >= 1
    ensures forall p :: p in s.batch && p in online ==> p in r.state.cooldowns && r.state.cooldowns[p] == now + s.cooldownMillis
    ensures forall p :: !(p in s.batch && p in online) ==>
      (p in r.state.cooldowns <==> p in st.cooldowns) && (p in st.cooldowns ==> r.state.cooldowns[p] == st.cooldowns[p])
    ensures forall p :: Teleported(p, s.world) in r.notes <==> p in s.batch && p in online
    ensures var st1 := st.(cooldowns := r.state.cooldowns);
      var r1 := Readiness(st1, cfg, s.world, online);
      && r.state == r1.state && r.started == r1.started
      && |r1.notes| <= |r.notes|
      && r.notes[|r.notes| - |r1.notes|..] == r1.notes
      && |r.notes| - |r1.notes| == |Reachable(s.batch, online)|
      && (forall i :: 0 <= i < |r.notes| - |r1.notes| ==> r.notes[i].Teleported? && r.notes[i].world == s.world)
  {
    var teleported := TeleportedNotes(s, online);
    var st1 := TeleportCooldowns(st, s, online, now);
    assert st1 == st.(cooldowns := st1.cooldowns);
    var r1 := Readiness(st1, cfg, s.world, online);
    ReadinessSendsNoTeleport(st1, cfg, s.world, online);
    AppendParts(teleported, r1.notes);
    Step(r1.state, teleported + r1.notes, r1.started)
  }

  /** The cooldowns the final step writes: the members online now get
      `cooldownMillis` from now, and every other record is kept. */
  function TeleportCooldowns(st: State, s: Session, online: set<PlayerId>, now: int): (r: State)
    ensures r.queues == st.queues
    ensures forall p :: p in s.batch && p in online ==> p in r.cooldowns && r.cooldowns[p] == now + s.cooldownMillis
    ensures forall p :: !(p in s.batch && p in online) ==>
      (p in r.cooldowns <==> p in st.cooldowns) && (p in st.cooldowns ==> r.cooldowns[p] == st.cooldowns[p])
  {
    ReachableMembers(s.batch, online);
    st.(cooldowns := SetCooldowns(st.cooldowns, Reachable(s.batch, online), now + s.cooldownMillis))
  }

  /** A readiness check itself teleports nobody. */
  lemma ReadinessSendsNoTeleport(st: State, cfg: Config, worldName: string, online: set<PlayerId>)
    requires cfg.maxPlayers >= 1
    ensures forall n :: n in Readiness(st, cfg, worldName, online).notes ==> !n.Teleported?
  {
  }

  /** A concatenation starts with its first part and ends with its second. */
  lemma AppendParts<T>(a: seq<T>, b: seq<T>)
    ensures (a + b)[|a|..] == b
    ensures forall i :: 0 <= i < |a| ==> (a + b)[i] == a[i]
  {
  }

  /** The teleport of the final step, to the members online at that step:
      one teleport to the session's world per such member, and no other. */
  function TeleportedNotes(s: Session, online: set<PlayerId>): (r: seq<Note>)
    ensures |r| == |Reachable(s.batch, online)|
    ensures forall p :: Teleported(p, s.world) in r <==> p in s.batch && p in online
    ensures forall i :: 0 <= i < |r| ==> r[i].Teleported? && r[i].world == s.world
  {
    ReachableMembers(s.batch, online);
    NotesTo(Reachable(s.batch, online), p => Teleported(p, s.world))
  }

  /** The countdown message of one tick, to the members online at that tick. */
  function TickNotes(s: Session, time: int, online: set<PlayerId>): (r: seq<Note>)
    ensures forall p :: CountdownTick(p, time) in r <==> p in s.batch && p in online
    ensures forall n :: n in r ==> n.CountdownTick? && n.time == time
  {
    ReachableMembers(s.batch, online);
    NotesTo(Reachable(s.batch, online), p => CountdownTick(p, time))
  }

  /** Run one scheduled callback of session `s`. A tick only sends messages; the
      final step writes cooldowns and re-checks the queue. */
  function Fire(st: State, cfg: Config, s: Session, e: Event, online: set<PlayerId>, now: int): (r: Step)
    requires cfg.maxPlayers >= 1
    ensures e.Tick? ==> r.state == st && r.started.None?
    ensures e.Final? ==> r.state.queues == Readiness(st, cfg, s.world, online).state.queues
  {
    match e
    case Tick(_, time) => Step(st, TickNotes(s, time, online), None)
    case Final(_) => FinalStep(st, cfg, s, online, now)
  }

  /** Every callback keeps the store invariant. */
  lemma FirePreservesInv(st: State, cfg: Config, s: Session, e: Event, online: set<PlayerId>, now: int)
    requires cfg.maxPlayers >= 1
    requires Inv(st)
    ensures Inv(Fire(st, cfg, s, e, online, now).state)
  {
    if e.Final? {
      var r := FinalStep(st, cfg, s, online, now);
      ReadinessPreservesInv(st.(cooldowns := r.state.cooldowns), cfg, s.world, online);
    }
  }

  /** A player teleported by a session who asks to join again at once is
      turned away with the full cooldown left. */
  lemma RejoinRightAfterTeleportIsOnCooldown(st: State, cfg: Config, s: Session, online: set<PlayerId>, now: int,
                                             p: PlayerId, worldName: string, worlds: set<string>)
    requires cfg.maxPlayers >= 1
    requires s.cooldownMillis == cfg.cooldownSeconds * 1000 && cfg.cooldownSeconds >= 1
    requires p in s.batch && p in online && worldName in worlds
    ensures var r := FinalStep(st, cfg, s, online, now);
      Join(r.state, cfg, p, worldName, worlds, online, now).notes == [CooldownActive(p, cfg.cooldownSeconds)]
  {
    var r := FinalStep(st, cfg, s, online, now);
    assert CooldownEnd(r.state, p) == now + cfg.cooldownSeconds * 1000;
    JoinWithWholeCooldownLeft(r.state, cfg, p, worldName, worlds, online, now, cfg.cooldownSeconds);
  }

  /** A join with exactly `c` whole seconds of cooldown left is refused with
      `c` seconds reported. */
  lemma JoinWithWholeCooldownLeft(st: State, cfg: Config, id: PlayerId, worldName: string,
                                  worlds: set<string>, online: set<PlayerId>, now: int, c: int)
    requires cfg.maxPlayers >= 1
    requires worldName in worlds && c >= 1
    requires CooldownEnd(st, id) == now + c * 1000
    ensures Join(st, cfg, id, worldName, worlds, online, now).notes == [CooldownActive(id, c)]
  {
    assert RemainingSeconds(now + c * 1000, now) == c;
  }

  /** With the default settings, a first player joining "spawn" is told one of
      two are waiting; a second one fills the queue, both leave it as one batch
      with the first player named in the broadcast, and a five-second countdown
      is scheduled. */
  lemma TwoPlayerScenario(a: PlayerId, b: PlayerId, now: int)
    requires a != b && now >= 0
    ensures var r1 := Join(Empty, DefaultConfig, a, "spawn", {"spawn"}, {a, b}, now);
      && r1.notes == [QueueJoined(a, "spawn"), NotEnoughPlayers(a, "spawn", 1)]
      && r1.started.None?
      && var r2 := Join(r1.state, DefaultConfig, b, "spawn", {"spawn"}, {a, b}, now);
      && r2.started == Some(Session([a, b], "spawn", 30000, Schedule(5)))
      && "spawn" in r2.state.queues && r2.state.queues["spawn"] == []
      && JoinedBroadcast(a, "spawn") in r2.notes
      && |r2.started.value.events| == 6
  {
    FirstJoinWaits(a, b, now);
    SecondJoinStarts(a, b, now);
  }

  lemma SpawnIsLowerCase()
    ensures ToLower("spawn") == "spawn"
  {
    assert IsLowerCase("spawn") by {
      forall i | 0 <= i < |"spawn"| ensures !IsUpper("spawn"[i]) {
      }
    }
    ToLowerFixesLowerCase("spawn");
  }

  /** The first player to join an empty manager is queued alone and told one
      player is waiting. */
  lemma FirstJoinWaits(a: PlayerId, b: PlayerId, now: int)
    requires now >= 0
    ensures Join(Empty, DefaultConfig, a, "spawn", {"spawn"}, {a, b}, now)
      == Step(State(map["spawn" := [a]], map[]), [QueueJoined(a, "spawn"), NotEnoughPlayers(a, "spawn", 1)], None)
  {
    SpawnIsLowerCase();
    var st1 := State(map["spawn" := [a]], map[]);
    assert Enqueue(Empty, a, "spawn") == st1 by {
      assert [] + [a] == [a];
    }
    assert Readiness(st1, DefaultConfig, "spawn", {a, b}) == Step(st1, [NotEnoughPlayers(a, "spawn", 1)], None);
  }

  /** The second player fills the queue: both leave it together in one
      session, and the first is announced. */
  lemma SecondJoinStarts(a: PlayerId, b: PlayerId, now: int)
    requires a != b && now >= 0
    ensures var r2 := Join(State(map["spawn" := [a]], map[]), DefaultConfig, b, "spawn", {"spawn"}, {a, b}, now);
      && r2.started == Some(Session([a, b], "spawn", 30000, Schedule(5)))
      && "spawn" in r2.state.queues && r2.state.queues["spawn"] == []
      && JoinedBroadcast(a, "spawn") in r2.notes
  {
    SpawnIsLowerCase();
    var st1 := State(map["spawn" := [a]], map[]);
    assert !InAnyQueue(st1, b);
    assert CooldownEnd(st1, b) == 0;
    var st2 := State(map["spawn" := [a, b]], map[]);
    assert Enqueue(st1, b, "spawn") == st2 by {
      assert [a] + [b] == [a, b];
    }
    FullSpawnQueueStarts(a, b);
  }

  /** A readiness check on a "spawn" list of two, under the default settings,
      takes both as one session and announces the first. */
  lemma FullSpawnQueueStarts(a: PlayerId, b: PlayerId)
    ensures var rr := Readiness(State(map["spawn" := [a, b]], map[]), DefaultConfig, "spawn", {a, b});
      && rr.started == Some(Session([a, b], "spawn", 30000, Schedule(5)))
      && "spawn" in rr.state.queues && rr.state.queues["spawn"] == []
      && JoinedBroadcast(a, "spawn") in rr.notes
  {
    SpawnIsLowerCase();
    var st2 := State(map["spawn" := [a, b]], map[]);
    assert Count(st2, "spawn") == 2;
    assert [a, b][..2] == [a, b] && [a, b][2..] == [];
  }
}

=== FILE: queue_store.dfy ===
/**
 The membership store held by `QueueManager`: one ordered list of player ids
 per lower-cased world name (`worldQueues`) and a cooldown expiry in
 milliseconds per player (`playerCooldowns`), with the lookups and removals
 the manager performs on them.
 */
module QueueStore {
  import opened Wrappers
  import opened Text

  /** A player's `UUID`; only its identity matters here. */
  type PlayerId = int

  datatype State = State(queues: map<string, seq<PlayerId>>, cooldowns: map<PlayerId, int>)

  /** The state of a freshly constructed manager. */
  const Empty: State := State(map[], map[])

  predicate Distinct(s: seq<PlayerId>) {
    forall i, j :: 0 <= i < j < |s| ==> s[i] != s[j]
  }

  /** The store invariant: keys are lower-cased names, no list repeats an id,
      and no id sits in two lists. */
  predicate Inv(st: State) {
    && (forall w :: w in st.queues ==> IsLowerCase(w))
    && (forall w :: w in st.queues ==> Distinct(st.queues[w]))
    && (forall w1, w2, p :: w1 in st.queues && w2 in st.queues && p in st.queues[w1] && p in st.queues[w2] ==> w1 == w2)
  }

  lemma EmptyInv()
    ensures Inv(Empty)
  {
  }

  /** `isPlayerInAnyQueue`. */
  predicate InAnyQueue(st: State, id: PlayerId) {
    exists w :: w in st.queues && id in st.queues[w]
  }

  /** `getQueuedWorld`: the key of the list holding `id`, or `null`. The source
      scans the map in hash order; under the invariant at most one list can
      match, so the order does not matter. */
  function QueuedWorld(st: State, id: PlayerId): (r: Option<string>)
    requires Inv(st)
    ensures r.Some? <==> InAnyQueue(st, id)
    ensures r.Some? ==> r.value in st.queues && id in st.queues[r.value] && IsLowerCase(r.value)
    ensures r.Some? ==> forall w :: w in st.queues && id in st.queues[w] ==> w == r.value
  {
    if InAnyQueue(st, id) then
      var w :| w in st.queues && id in st.queues[w];
      Some(w)
    else
      None
  }

  /** `getQueueCount`: the length of the list for the lower-cased name. */
  function Count(st: State, worldName: string): (n: nat)
    ensures ToLower(worldName) !in st.queues ==> n == 0
    ensures ToLower(worldName) in st.queues ==> n == |st.queues[ToLower(worldName)]|
  {
    var key := ToLower(worldName);
    if key in st.queues then |st.queues[key]| else 0
  }

  /** Position of the first occurrence of `x` in `s`. */
  function IndexOf(s: seq<PlayerId>, x: PlayerId): (i: nat)
    requires x in s
    ensures i < |s| && s[i] == x && x !in s[..i]
  {
    if s[0] == x then 0 else 1 + IndexOf(s[1..], x)
  }

  /** `List.remove(Object)`: drop the first occurrence of `x`, if any. */
  function RemoveFirst(s: seq<PlayerId>, x: PlayerId): (r: seq<PlayerId>)
    ensures x !in s ==> r == s
    ensures x in s ==> r == s[..IndexOf(s, x)] + s[IndexOf(s, x) + 1..]
  {
    if s == [] then []
    else if s[0] == x then s[1..]
    else
      assert x in s ==> s[1..][..IndexOf(s, x) - 1] == s[1..IndexOf(s, x)];
      [s[0]] + RemoveFirst(s[1..], x)
  }

  /** Removing one occurrence of an id from a list without repeats removes it
      entirely and keeps the list free of repeats. */
  lemma RemoveFirstDistinct(s: seq<PlayerId>, x: PlayerId)
    requires Distinct(s)
    ensures x !in RemoveFirst(s, x)
    ensures Distinct(RemoveFirst(s, x))
    ensures forall p :: p in RemoveFirst(s, x) <==> p in s && p != x
  {
    if x in s {
      var i := IndexOf(s, x);
      var r := RemoveFirst(s, x);
      assert r == s[..i] + s[i + 1..];
      assert forall k :: 0 <= k < i ==> r[k] == s[k];
      assert forall k :: i <= k < |r| ==> r[k] == s[k + 1];
      forall k1, k2 | 0 <= k1 < k2 < |r| ensures r[k1] != r[k2] {
        var j1 := if k1 < i then k1 else k1 + 1;
        var j2 := if k2 < i then k2 else k2 + 1;
        assert r[k1] == s[j1] && r[k2] == s[j2] && j1 < j2;
      }
      forall k | 0 <= k < |r| ensures r[k] != x {
        var j := if k < i then k else k + 1;
        assert r[k] == s[j] && j != i;
      }
      forall p | p in s && p != x ensures p in r {
        var k :| 0 <= k < |s| && s[k] == p;
        if k < i { assert r[k] == p; } else { assert r[k - 1] == p; }
      }
    }
  }

  /** The source's `forEach(uuid -> queue.remove(uuid))`: remove, in turn, the
      first occurrence of each id of `batch`. */
  function RemoveEach(s: seq<PlayerId>, batch: seq<PlayerId>): (r: seq<PlayerId>)
    ensures |r| <= |s|
    decreases |batch|
  {
    if batch == [] then s else RemoveEach(RemoveFirst(s, batch[0]), batch[1..])
  }

  /** Removing the ids of a prefix one by one leaves exactly the suffix, for any
      list: each removal finds its id at the head of what is left. */
  lemma {:induction false} RemoveEachPrefix(s: seq<PlayerId>, k: nat)
    requires k <= |s|
    ensures RemoveEach(s, s[..k]) == s[k..]
    decreases k
  {
    if k > 0 {
      assert s[..k][0] == s[0];
      assert RemoveFirst(s, s[0]) == s[1..];
      assert s[..k][1..] == s[1..][..k - 1];
      RemoveEachPrefix(s[1..], k - 1);
      assert s[1..][k - 1..] == s[k..];
    }
  }

  /** Dropping the front of one list keeps the store invariant, and the ids
      dropped are then in no list at all. */
  lemma DropFrontPreservesInv(st: State, key: string, k: nat)
    requires Inv(st)
    requires key in st.queues && k <= |st.queues[key]|
    ensures Inv(st.(queues := st.queues[key := st.queues[key][k..]]))
    ensures forall p :: p in st.queues[key][..k] ==> !InAnyQueue(st.(queues := st.queues[key := st.queues[key][k..]]), p)
  {
    var q := st.queues[key];
    var rest := q[k..];
    assert forall p :: p in rest ==> p in q;
    assert Distinct(rest) by {
      forall i, j | 0 <= i < j < |rest| ensures rest[i] != rest[j] {
        assert rest[i] == q[i + k] && rest[j] == q[j + k];
      }
    }
    var st' := st.(queues := st.queues[key := rest]);
    forall p | p in q[..k] ensures !InAnyQueue(st', p) {
      var i :| 0 <= i < k && q[i] == p;
      forall j | 0 <= j < |rest| ensures rest[j] != p {
        assert rest[j] == q[k + j];
      }
    }
  }

  /** The store after a leave, and whether the id was queued. */
  datatype LeaveResult = LeaveResult(state: State, removed: bool)

  /** `leaveQueue`: remove `id` from the list holding it. `removed` tells
      whether it was queued (the source then confirms to the player). */
  function Leave(st: State, id: PlayerId): (r: LeaveResult)
    requires Inv(st)
    ensures r.removed <==> InAnyQueue(st, id)
    ensures !r.removed ==> r.state == st
    ensures r.state.cooldowns == st.cooldowns
    ensures r.state.queues.Keys == st.queues.Keys
    ensures forall w :: w in st.queues && id !in st.queues[w] ==> r.state.queues[w] == st.queues[w]
    ensures forall w :: w in st.queues && id in st.queues[w] ==> r.state.queues[w] == RemoveFirst(st.queues[w], id)
    ensures !InAnyQueue(r.state, id)
    ensures Inv(r.state)
  {
    match QueuedWorld(st, id)
    case None => LeaveResult(st, false)
    case Some(w) =>
      var q := st.queues[w];
      RemoveFirstDistinct(q, id);
      LeaveResult(st.(queues := st.queues[w := RemoveFirst(q, id)]), true)
  }
}

=== FILE: queue_trace.dfy ===
/**
 The manager as the server's main thread drives it: joins, leaves, direct
 readiness checks and scheduled callbacks, run one at a time. Sessions started
 along the way are kept so that a callback names the session it belongs to;
 when the callbacks of different sessions run, and who is online then, is up
 to the host, so a trace may interleave them in any order.
 */
module QueueTrace {
  import opened QueueStore
  import opened QueueManager

  /** The store together with the sessions started so far. */
  datatype System = System(state: State, sessions: seq<Session>)

  datatype Action =
    | JoinAction(id: PlayerId, worldName: string, worlds: set<string>, online: set<PlayerId>, now: int)
    | LeaveAction(id: PlayerId)
    | CheckAction(worldName: string, online: set<PlayerId>)
    | FireAction(session: nat, event: nat, online: set<PlayerId>, now: int)

  function Record(sys: System, r: Step): System {
    System(r.state, sys.sessions + (if r.started.Some? then [r.started.value] else []))
  }

  /** One action. A callback for a session or event that does not exist is
      ignored. */
  function Apply(sys: System, cfg: Config, a: Action): (r: System)
    requires cfg.maxPlayers >= 1
    requires Inv(sys.state)
    ensures Inv(r.state)
    ensures sys.sessions <= r.sessions && |r.sessions| <= |sys.sessions| + 1
    ensures a.LeaveAction? ==> r.sessions == sys.sessions && !InAnyQueue(r.state, a.id)
  {
    match a
    case JoinAction(id, worldName, worlds, online, now) =>
      JoinPreservesInv(sys.state, cfg, id, worldName, worlds, online, now);
      Record(sys, Join(sys.state, cfg, id, worldName, worlds, online, now))
    case LeaveAction(id) =>
      System(Leave(sys.state, id).state, sys.sessions)
    case CheckAction(worldName, online) =>
      ReadinessPreservesInv(sys.state, cfg, worldName, online);
      Record(sys, Readiness(sys.state, cfg, worldName, online))
    case FireAction(i, j, online, now) =>
      if i < |sys.sessions| && j < |sys.sessions[i].events| then
        var s := sys.sessions[i];
        FirePreservesInv(sys.state, cfg, s, s.events[j], online, now);
        Record(sys, Fire(sys.state, cfg, s, s.events[j], online, now))
      else
        sys
  }

  /** A whole trace of actions, in order. */
  function Run(sys: System, cfg: Config, actions: seq<Action>): (r: System)
    requires cfg.maxPlayers >= 1
    requires Inv(sys.state)
    ensures Inv(r.state)
    ensures sys.sessions <= r.sessions
    decreases |actions|
  {
    if actions == [] then sys else Run(Apply(sys, cfg, actions[0]), cfg, actions[1..])
  }

  /** From a fresh manager, whatever the interleaving of joins, leaves and
      callbacks, no player is ever in two queues. */
  lemma NoPlayerInTwoQueues(cfg: Config, actions: seq<Action>)
    requires cfg.maxPlayers >= 1
    ensures var st := Run(System(Empty, []), cfg, actions).state;
      forall w1, w2, p :: w1 in st.queues && w2 in st.queues && p in st.queues[w1] && p in st.queues[w2] ==> w1 == w2
  {
    EmptyInv();
  }

  /** Every session started under a fixed configuration carries a batch of
      exactly `maxPlayers` ids. */
  lemma {:induction false} SessionsHaveFullBatches(sys: System, cfg: Config, actions: seq<Action>)
    requires cfg.maxPlayers >= 1
    requires Inv(sys.state)
    requires forall s :: s in sys.sessions ==> |s.batch| == cfg.maxPlayers
    ensures forall s :: s in Run(sys, cfg, actions).sessions ==> |s.batch| == cfg.maxPlayers
    decreases |actions|
  {
    if actions != [] {
      var sys' := Apply(sys, cfg, actions[0]);
      forall s | s in sys'.sessions ensures |s.batch| == cfg.maxPlayers {
        if s !in sys.sessions {
          assert s == sys'.sessions[|sys'.sessions| - 1];
        }
      }
      SessionsHaveFullBatches(sys', cfg, actions[1..]);
    }
  }
}

=== FILE: text.dfy ===
/**
 The few `java.lang.String` operations the queue and the placeholder rely on:
 `toLowerCase`, `equalsIgnoreCase`, `startsWith` and `String.valueOf(int)` for
 non-negative values. Case mapping is modelled on the ASCII letters only.
 */
module Text {

  predicate IsUpper(c: char) {
    'A' <= c <= 'Z'
  }

  /** `Character.toLowerCase` on the ASCII range. */
  function LowerChar(c: char): (r: char)
    ensures !IsUpper(r)
    ensures r != c ==> IsUpper(c)
  {
    if IsUpper(c) then (c as int + 32) as char else c
  }

  /** No character of `s` is an upper-case letter. */
  predicate IsLowerCase(s: string) {
    forall i :: 0 <= i < |s| ==> !IsUpper(s[i])
  }

  /** `String.toLowerCase`. */
  function ToLower(s: string): (r: string)
    ensures |r| == |s|
    ensures IsLowerCase(r)
    ensures forall i :: 0 <= i < |s| ==> r[i] == LowerChar(s[i])
  {
    if s == [] then [] else [LowerChar(s[0])] + ToLower(s[1..])
  }

  /** A string without upper-case letters is its own lower-case form. */
  lemma {:induction false} ToLowerFixesLowerCase(s: string)
    requires IsLowerCase(s)
    ensures ToLower(s) == s
  {
    if s != [] {
      assert IsLowerCase(s[1..]) by {
        forall i | 0 <= i < |s[1..]| ensures !IsUpper(s[1..][i]) {
          assert s[1..][i] == s[i + 1];
        }
      }
      ToLowerFixesLowerCase(s[1..]);
    }
  }

  /** Lower-casing twice is lower-casing once: a key that is already lower-cased
      addresses the same queue when it is lower-cased again. */
  lemma ToLowerIdempotent(s: string)
    ensures ToLower(ToLower(s)) == ToLower(s)
  {
    ToLowerFixesLowerCase(ToLower(s));
  }

  /** `String.equalsIgnoreCase` on the ASCII range: equal length, and the
      characters agree position by position up to case. */
  predicate EqualsIgnoreCase(a: string, b: string) {
    |a| == |b| && forall i :: 0 <= i < |a| ==> LowerChar(a[i]) == LowerChar(b[i])
  }

  /** Ignoring case is the same as comparing lower-cased forms. */
  lemma EqualsIgnoreCaseIsLowerEquality(a: string, b: string)
    ensures EqualsIgnoreCase(a, b) <==> ToLower(a) == ToLower(b)
  {
    if ToLower(a) == ToLower(b) {
      assert |a| == |b|;
      forall i | 0 <= i < |a| ensures LowerChar(a[i]) == LowerChar(b[i]) {
        assert ToLower(a)[i] == ToLower(b)[i];
      }
    }
  }

  /** `String.startsWith`: case-sensitive prefix test. */
  predicate StartsWith(s: string, prefix: string)
    ensures StartsWith(s, prefix) <==> |prefix| <= |s| && forall i :: 0 <= i < |prefix| ==> s[i] == prefix[i]
  {
    |prefix| <= |s| && s[..|prefix|] == prefix
  }

  predicate IsDigit(c: char) {
    '0' <= c <= '9'
  }

  predicate AllDigits(s: string) {
    forall i :: 0 <= i < |s| ==> IsDigit(s[i])
  }

  function DigitChar(d: nat): (c: char)
    requires d < 10
    ensures IsDigit(c)
    ensures c as int - '0' as int == d
  {
    ('0' as int + d) as char
  }

  /** `String.valueOf(int)` for a non-negative value: the shortest decimal
      representation, with a leading zero only for zero itself. */
  function NatToString(n: nat): (r: string)
    ensures |r| >= 1
    ensures AllDigits(r)
    ensures r[0] == '0' <==> n == 0
    ensures n == 0 ==> r == "0"
    decreases n
  {
    if n < 10 then [DigitChar(n)] else NatToString(n / 10) + [DigitChar(n % 10)]
  }

  /** The value of a string of decimal digits, most significant first. */
  function DigitsValue(s: string): nat
    requires AllDigits(s)
    decreases |s|
  {
    if s == [] then 0 else DigitsValue(s[..|s| - 1]) * 10 + (s[|s| - 1] as int - '0' as int)
  }

  /** Reading back the decimal string gives the number it was made from. */
  lemma {:induction false} NatToStringRoundTrip(n: nat)
    ensures DigitsValue(NatToString(n)) == n
    decreases n
  {
    if n >= 10 {
      var s := NatToString(n / 10);
      var r := NatToString(n);
      assert r == s + [DigitChar(n % 10)];
      assert r[..|r| - 1] == s;
      NatToStringRoundTrip(n / 10);
    }
  }

  /** Different numbers print differently. */
  lemma NatToStringInjective(a: nat, b: nat)
    requires NatToString(a) == NatToString(b)
    ensures a == b
  {
    NatToStringRoundTrip(a);
    NatToStringRoundTrip(b);
  }

  /** A canonical decimal string: non-empty digits, with a leading zero only
      for zero itself. */
  predicate IsCanonicalDecimal(s: string) {
    |s| >= 1 && AllDigits(s) && (s[0] == '0' ==> s == "0")
  }

  /** A canonical decimal string is the one `NatToString` prints for its
      value, so a canonical string is pinned down by the number it denotes. */
  lemma {:induction false} CanonicalDecimalIsPrinted(s: string)
    requires IsCanonicalDecimal(s)
    ensures s == NatToString(DigitsValue(s))
    decreases |s|
  {
    if |s| == 1 {
      assert s[..0] == [];
      assert DigitsValue(s) == s[0] as int - '0' as int;
    } else {
      var p := s[..|s| - 1];
      assert p[0] == s[0] != '0';
      assert IsCanonicalDecimal(p);
      CanonicalDecimalIsPrinted(p);
      LeadingDigitPositive(p);
      var v := DigitsValue(s);
      var d := s[|s| - 1] as int - '0' as int;
      assert v == DigitsValue(p) * 10 + d && 0 <= d < 10;
      assert v / 10 == DigitsValue(p) && v % 10 == d;
      assert s == p + [DigitChar(d)];
    }
  }

  lemma {:induction false} LeadingDigitPositive(s: string)
    requires |s| >= 1 && AllDigits(s) && s[0] != '0'
    ensures DigitsValue(s) >= 1
    decreases |s|
  {
    if |s| > 1 {
      var p := s[..|s| - 1];
      assert p[0] == s[0];
      LeadingDigitPositive(p);
    } else {
      assert s[..0] == [];
    }
  }

  /** Two canonical decimal strings with the same value are equal. */
  lemma CanonicalDecimalUnique(a: string, b: string)
    requires IsCanonicalDecimal(a) && IsCanonicalDecimal(b)
    requires DigitsValue(a) == DigitsValue(b)
    ensures a == b
  {
    CanonicalDecimalIsPrinted(a);
    CanonicalDecimalIsPrinted(b);
  }
}

=== FILE: wrappers.dfy ===
/** Optional values: the model's stand-in for Java's `null`. */
module Wrappers {

  datatype Option<+T> = None | Some(value: T)
}
